=== FILE: README.md ===
# Portfolio site core in Dafny

A model of the behaviour behind a one-page portfolio site's project gallery
(js/script.js), together with proofs about it. Four pieces are modelled:

- **Catalog ingestion and card rendering** (`initGallery`, `renderProjectCard`):
  - the id-to-project index (last write wins);
  - one card per project that has media items, in catalog order, or the
    "No projects found" placeholder;
  - each card's cover, count label, file label, glyph, icon and tags, and the
    gallery its "Open Gallery" button opens.
- **The lightbox viewer** (`openLightbox`, `closeLightbox`, `showSlide` and the
  button, thumbnail, backdrop and keyboard bindings):
  - a state of current gallery, current index and an overlay flag;
  - a *view* record holding every DOM write the viewer makes: title, counter
    text, prev/next disabled flags, the thumbnail strip with its video and
    active marks, and the stage (image with its alt text, or video with its
    playing state).
- **The typed hero title** (`type()`): one step of the type-pause-delete
  automaton over the four phrases, returning the text shown and the wait
  before the next step.
- **Contact-form validation**, covering:
  - trimming, with ECMAScript white space and line terminators;
  - the default subject "Portfolio Inquiry";
  - the required-fields check;
  - the email pattern `^[^\s@]+@[^\s@]+\.[^\s@]+$`.

Modules, leaf first:

- `Wrappers`: `Option` and `Result`.
- `Decimal`: decimal numerals, and reading them back.
- `Media`: media items, projects and item counts.
- `Catalog`: the gallery index, card rendering and the grid.
- `Lightbox`: the viewer state, view and transitions.
- `Page`: events over a booted catalog.
- `TypedTitle`: the hero title automaton.
- `ContactForm`: form validation.
- `Fixtures`: two records of data/projects.js, driven through the page.

Generated text has a parser as its partner, with a round-trip lemma:

- the counter "i / n";
- the count label "N images · M videos";
- the file label "N files".

The email scanner, which splits the address at its first "@", is proved
equivalent to an independent existential statement of the pattern's shape.

Two behaviours of script.js the model keeps as written:

- Opening an unknown id does not leave the viewer untouched. It clears the
  current gallery (script.js:261-262), while the index, the overlay and the
  view stay as they were.
- Closing does not reset the index (script.js:287-293). The stale view stays
  in place with its video paused.

## Model

| member | source | states |
|---|---|---|
| Decimal.ReadShow | js/script.js:319 | The decimal numeral of n, followed by text that does not start with a digit, reads back as n and that text. |
| Decimal.ReadNatExact | js/script.js:319 | Conversely, a numeral read from text that does not start with "0" is printed exactly as it was read. |
| Media.CountOf | js/script.js:345-346 | The number of items of one kind is at most the item count, and it is zero exactly when no item has that kind. |
| Media.CountsPartition | js/script.js:345-346 | The image count and the video count add up to the number of items. |
| Catalog.GalleryIndexKeys | js/script.js:392-393 | An id is a key of the gallery index exactly when some project, empty or not, carries it. |
| Catalog.GalleryIndexLastWins | js/script.js:392-393 | An id maps to the last project in catalog order that carries it. |
| Catalog.UniqueIdsLookup | js/script.js:392-393 | When ids are unique, looking up a project's id gives back that project. |
| Catalog.Cover | js/script.js:344 | The cover is one of the project's items. It is the first image when there is one, and otherwise the first item. |
| Catalog.CountLabel | js/script.js:348-351 | The count label is empty exactly when there are no images and no videos. |
| Catalog.CountLabelRoundTrip | js/script.js:348-351 | Parsing a count label gives back both counts. |
| Catalog.CountLabelExact | js/script.js:348-351 | Every text the parser accepts is the count label of the counts it returns. So the parser accepts only positive counts without leading zeros, the image part first, " · " between the parts, and an "s" exactly when the count exceeds one. |
| Catalog.FileLabelReads | js/script.js:366 | The file label reads back as the item count, followed by " files" unless the count is exactly one. |
| Catalog.CoverIcon | js/script.js:353 | The glyph is the play circle exactly when there are videos and no images. Otherwise it is the images glyph. |
| Catalog.CoverIconOfItems | js/script.js:345-353 | Computed from a project's items, the glyph is the play circle exactly when some item is a video and no item is an image. |
| Catalog.CardOpensItsProject | js/script.js:355-382 | A card opens its own project's id at index 0. It shows the project's title, description and tags in order, and the project's icon or, when that is empty, "fas fa-folder-open". |
| Catalog.CardCover | js/script.js:344-353 | A card's cover is the first image, or the first item when there is no image. Its glyph marks exactly the projects that have videos and no images. |
| Catalog.CardLabels | js/script.js:345-372 | A card's count label parses back to the image and video counts. Those counts sum to the item count, so the label is never empty. The file label reads back as the item count. |
| Catalog.SourcesFromShape | js/script.js:396-401 | The catalog positions that get a card are increasing positions of non-empty projects, and every non-empty project from the starting position on is among them. |
| Catalog.CardSourcesShape | js/script.js:396-401 | Over the whole catalog, cards come from exactly the non-empty projects, in catalog order. |
| Catalog.CardsFollowCatalog | js/script.js:396-401 | Card k is the rendering of the project at the k-th card position. |
| Catalog.CardsOpenAtFirstItem | js/script.js:382 | Card k's button opens the id of the project at the k-th card position, at index 0. |
| Catalog.PlaceholderIffNoItems | js/script.js:403-405 | The grid shows the placeholder exactly when no project has items. |
| Catalog.CardsOpenTheirProject | js/script.js:391-401 | With unique ids, each card's id is in the index, maps to a project with items, and that project renders to the card itself. |
| Catalog.DuplicateIdCardOpensEmptyProject | js/script.js:392-397 | With a duplicated id, a later empty project takes over the index entry, so an earlier project's card opens a gallery with no items. |
| Lightbox.Clamp | js/script.js:298 | The index is clamped into [0, n-1]: an in-range index is kept, an index below 0 becomes 0, and one past the end becomes n-1. |
| Lightbox.CounterRoundTrip | js/script.js:319 | The counter text parses back to the 1-based index and the item count. |
| Lightbox.ShowSlide | js/script.js:295-328 | With no gallery, nothing changes. Otherwise the index becomes the clamped target and the view is rendered from it. That covers the counter, the prev and next flags (disabled exactly at the first and last index), exactly one active thumbnail, a video on the stage exactly for a video item, and the image alt text. A new stage element is built on every call, even for the item already shown. The title and thumbnails are kept apart from the active mark, and a framed viewer ends consistent. |
| Lightbox.Open | js/script.js:260-285 | An unknown id clears the gallery and keeps the index, overlay and view. A known id opens the overlay with the project's title and the clamped start index. It builds exactly one thumbnail per item, in order, marked video exactly when the item is one and active exactly at the index. A new stage element is built, and the result is consistent. |
| Lightbox.Close | js/script.js:287-293 | Closing clears the gallery and hides the overlay. It keeps the index, and keeps the view except that a video on the stage is paused. |
| Lightbox.ReshowOnlyRestages | js/script.js:295-328 | Showing a slide whose clamped index is the current one changes nothing in a consistent viewer except that the stage element is built again, so a video starts over from its beginning. |
| Lightbox.BoundaryNavigationOnlyRestages | js/script.js:295-339 | A step back from the first item and a step forward from the last (what ArrowLeft and ArrowRight do there) keep the index and the view, active thumbnail included, so there is no wrap-around. The stage element is still built again, so a video starts over. |
| Lightbox.Presses | js/script.js:338-339 | Repeated ArrowRight or ArrowLeft presses keep the same gallery and preserve viewer consistency. |
| Lightbox.NextPressesSaturate | js/script.js:339 | Pressing ArrowRight k times moves to min(index + k, n - 1). |
| Lightbox.PrevPressesSaturate | js/script.js:338 | Pressing ArrowLeft k times moves to max(index - k, 0). |
| Page.Handle | js/script.js:331-340 | On a page whose every card opens a project with items (which unique ids guarantee, by Page.UniqueIdsMakeCardsOpenable): no event changes the gallery index or the grid, and each event preserves viewer consistency. A key press while the overlay is closed changes nothing, and so does a click on a disabled "previous" or "next" button. |
| Page.KeysMirrorButtons | js/script.js:331-340 | While the overlay is open, the keys mirror the buttons. Escape acts as the close button and as a backdrop click. The arrow keys act as "next" and "previous" whenever that button is enabled. Other keys, and clicks inside the content, change nothing. |
| Page.EndsOfGallery | js/script.js:320-339 | In an open gallery, "previous" on the first item and "next" on the last are disabled and change nothing. ArrowLeft and ArrowRight there still rebuild the stage, so a video starts over. |
| Page.ArrowKeyPresses | js/script.js:336-339 | On an open overlay, pressing ArrowRight (ArrowLeft) k times through the keydown listener leaves the viewer exactly as k forward (backward) steps of Lightbox.Presses do. |
| Page.Run | js/script.js:255-340 | For a catalog whose every card opens a project with items (which unique ids guarantee, by Page.UniqueIdsMakeCardsOpenable): after booting it and handling any sequence of events, the gallery index and the grid are those built from the catalog, and the viewer is consistent. |
| Page.UniqueIdsMakeCardsOpenable | js/script.js:391-401 | With unique ids, every card's button opens a gallery that has items, so the viewer never reads an item of an empty list. |
| Page.BootCardOpens | js/script.js:382 | After boot, card k opens the project at the k-th card position, at index 0. |
| TypedTitle.StartIsValid | js/script.js:199-209 | The initial automaton state is valid, and all four phrases are non-empty. |
| TypedTitle.Step | js/script.js:211-236 | From a valid state, a step yields a valid state and shows the phrase's first charIdx characters. The character index moves by one. Deleting starts exactly when the whole phrase is shown and stops exactly when nothing is left. The phrase changes, to the next one mod 4, exactly when deleting reaches 0. The wait is 2000 ms right after typing finishes, 400 ms right after deleting finishes, and otherwise 80 ms while typing or 50 ms while deleting. |
| TypedTitle.StepsAppend | js/script.js:211-236 | Running a + b steps is running a steps and then b, and the waits add up. |
| TypedTitle.TypingRun | js/script.js:214-220 | Typing from character c reaches the phrase's end in the remaining steps, waiting 80 ms per character and 2000 ms at the end. |
| TypedTitle.DeletingRun | js/script.js:221-228 | Deleting from character c reaches the next phrase in c steps, waiting 50 ms per character and 400 ms at the end. |
| TypedTitle.PhraseCycle | js/script.js:211-236 | Typing and deleting one phrase takes twice its length in steps, ends at the next phrase, and waits 130 ms × (length − 1) + 2400 ms in total. |
| ContactForm.TrimStart | js/script.js:131-133 | Only leading white space is removed, and what remains does not start with white space. |
| ContactForm.TrimEnd | js/script.js:131-133 | Only trailing white space is removed, and what remains does not end with white space. |
| ContactForm.Trim | js/script.js:131-133 | The result is an inner slice with white space removed from both ends, and it neither starts nor ends with white space. It is empty exactly when the input is all white space. |
| ContactForm.EmailMatchesIffShape | js/script.js:141-142 | The scanner accepts an address exactly when it splits as A@B.C, with A, B and C non-empty and free of "@" and white space. |
| ContactForm.ShapeMatches | js/script.js:141-142 | Every address of the shape A@B.C is accepted by the scanner. |
| ContactForm.MatchesShape | js/script.js:141-142 | Every address the scanner accepts has the shape A@B.C. |
| ContactForm.Validate | js/script.js:131-146 | The required-fields error comes exactly when the email or the message trims to empty, and it is checked first. The invalid-email error comes exactly when neither is empty and the trimmed email lacks the shape. Otherwise the trimmed fields are accepted, with "Portfolio Inquiry" when the subject trims to empty. |
| Fixtures.SampleIndex | data/projects.js:39-81 | The two sample records are indexed under their own ids. |
| Fixtures.CounterTexts | js/script.js:319 | The counter reads "1 / 4" at the first of four items and "8 / 8" at the last of eight. |
| Fixtures.OpenedFromCard | js/script.js:382 | Either sample card opens its own record at index 0, consistently rendered. |
| Fixtures.TrainingOpensOnFirstItem | data/projects.js:69-81 | Opening "Training" from its card shows "1 / 4", with "previous" disabled and "next" enabled. |
| Fixtures.PresentationEndsOnVideo | data/projects.js:39-55 | Opening "Presentation Design" and pressing ArrowRight seven times shows "8 / 8". The stage plays Slide.mp4, "next" is disabled and "previous" is enabled. |

## Left out

- Theme toggle, hamburger menu, smooth scrolling, mailto rewriting, the navbar scroll logic, the scroll-reveal observer and the hero click pulse: small computations over layout measurements, timers and browser storage (the navbar's scroll threshold and section-range test, the reveal's capped 80 ms stagger), outside the gallery.
- Catalog loading: the fetched JSON document, the pre-loaded global and the fallback between them are I/O. The model starts from the catalog as a sequence of records.
- `setTimeout` scheduling: the title step returns its wait instead of scheduling itself, and the 1200 ms start delay is not modelled.
- The Gmail compose URL and `encodeURIComponent` after a successful validation: a foreign call. `Validate` stops at the accepted fields.
- `scrollIntoView`, the body's overflow style, lazy image loading, and the markup and CSS classes of cards and thumbnails: presentation only.
- Lightbox.ShowSlide: the pause of the outgoing video before the stage is replaced is not modelled as an ordered event. The new stage simply replaces the old one.
- Lightbox.Open: requires that a known id's project has items. script.js would read `items[0]` of an empty list there. Page.UniqueIdsMakeCardsOpenable shows that card buttons meet this requirement when ids are unique.
- Page.Handle: requires that every card opens a project with items. With a duplicated id a later empty project can take over a card's id (Catalog.DuplicateIdCardOpensEmptyProject); script.js then opens the overlay, empties the stage and throws at `item.type` (script.js:307), leaving a viewer that is not consistent. That case is not modelled.
- Page.Run: requires the same of the booted catalog, for the same reason; consistency is promised only for such catalogs, which include every catalog with unique ids.
- Catalog.CardsOpenTheirProject: holds under unique ids only. Catalog.DuplicateIdCardOpensEmptyProject shows why.
- Inherited object keys (an id such as "constructor" found on the plain object's prototype) are not modelled. The gallery index is a finite map.
- Missing `items`, `tags`, `icon` or `description` fields are modelled as empty sequences or empty strings. `initGallery` reads a missing and an empty `items` the same way (script.js:397). `openLightbox` fails on both, at different lines: a missing list at `items.forEach` (script.js:269), an empty one at `items[index]` (script.js:304-307). Lightbox.Open's requires excludes both.
- Decimal.Show: prints every number in plain decimal. JavaScript uses exponent form from 10^21 on, far above any count or index the page prints.
- The view starts blank: the initial contents of the page's lightbox elements are not modelled.
- Fixtures: only the "Presentation Design" and "Training" records are transcribed, and their description texts are left empty. No lemma depends on the descriptions.
- The HTML escaping of titles, tags and paths in the card markup (there is none in the code) is not modelled, because a card is a structured record.

=== FILE: catalog.dfy ===
/** Catalog ingestion and card rendering (`initGallery` inside `loadProjects`
    and `renderProjectCard` in js/script.js). A card is a structured record of
    what the card's markup shows, not the markup itself. */
module Catalog {
  import opened Wrappers
  import opened Decimal
  import opened Media

  const DefaultIcon := "fas fa-folder-open"
  const PlayCircleIcon := "fas fa-play-circle"
  const ImagesIcon := "fas fa-images"

  /** The separator between the image and the video part of a count label. */
  const Sep := " \U{00B7} "

  // ---------------------------------------------------------------------
  // Gallery index: id -> project, last write wins

  /** The map built by `projects.forEach(p => { galleries[p.id] = p; })`. */
  function GalleryIndex(catalog: seq<Project>): (g: map<string, Project>)
  {
    if catalog == [] then map[]
    else
      var last := catalog[|catalog| - 1];
      GalleryIndex(catalog[..|catalog| - 1])[last.id := last]
  }

  /** Position k holds the last project of the catalog that carries id. */
  ghost predicate LastWith(catalog: seq<Project>, id: string, k: int)
  {
    && 0 <= k < |catalog|
    && catalog[k].id == id
    && forall j :: k < j < |catalog| ==> catalog[j].id != id
  }

  /** The index holds exactly the catalog's ids. */
  lemma {:induction false} GalleryIndexKeys(catalog: seq<Project>, id: string)
    ensures id in GalleryIndex(catalog) <==> exists k :: 0 <= k < |catalog| && catalog[k].id == id
  {
    if catalog != [] {
      var n := |catalog|;
      var front := catalog[..n - 1];
      assert GalleryIndex(catalog) == GalleryIndex(front)[catalog[n - 1].id := catalog[n - 1]];
      GalleryIndexKeys(front, id);
      if id in GalleryIndex(front) {
        var k :| 0 <= k < |front| && front[k].id == id;
        assert catalog[k] == front[k];
      }
      if catalog[n - 1].id != id {
        forall k | 0 <= k < n - 1 && catalog[k].id == id
          ensures front[k].id == id
        {
        }
      }
    }
  }

  /** The index maps each id to the last project carrying it, whether or not
      that project has items. */
  lemma {:induction false} GalleryIndexLastWins(catalog: seq<Project>, id: string, k: int)
    requires LastWith(catalog, id, k)
    ensures id in GalleryIndex(catalog) && GalleryIndex(catalog)[id] == catalog[k]
  {
    var n := |catalog|;
    var front := catalog[..n - 1];
    assert GalleryIndex(catalog) == GalleryIndex(front)[catalog[n - 1].id := catalog[n - 1]];
    if k < n - 1 {
      assert LastWith(front, id, k) by {
        forall j | k < j < |front|
          ensures front[j].id != id
        {
          assert front[j] == catalog[j];
        }
      }
      GalleryIndexLastWins(front, id, k);
    }
  }

  /** Ids are unique across the catalog (those of data/projects.js are). */
  predicate UniqueIds(catalog: seq<Project>)
  {
    forall j, k :: 0 <= j < k < |catalog| ==> catalog[j].id != catalog[k].id
  }

  /** With unique ids, looking up a project's id gives back that project. */
  lemma UniqueIdsLookup(catalog: seq<Project>, k: nat)
    requires UniqueIds(catalog) && k < |catalog|
    ensures catalog[k].id in GalleryIndex(catalog) && GalleryIndex(catalog)[catalog[k].id] == catalog[k]
  {
    GalleryIndexLastWins(catalog, catalog[k].id, k);
  }

  // ---------------------------------------------------------------------
  // Card rendering

  /** First image of a list: position k is an image and none before it is. */
  predicate IsFirstImage(items: seq<MediaItem>, k: int)
  {
    0 <= k < |items| && items[k].kind == Image && forall j :: 0 <= j < k ==> items[j].kind != Image
  }

  /** `items.find(i => i.type === 'image') || items[0]` on a non-empty list. */
  function Cover(items: seq<MediaItem>): (c: MediaItem)
    requires |items| > 0
    ensures c in items
    ensures forall k :: IsFirstImage(items, k) ==> c == items[k]
    ensures CountOf(items, Image) == 0 ==> c == items[0]
  {
    if items[0].kind == Image || |items| == 1 then items[0]
    else
      var rest := items[1..];
      if CountOf(rest, Image) == 0 then items[0] else
      var c := Cover(rest);
      assert forall k :: IsFirstImage(items, k) ==> IsFirstImage(rest, k - 1);
      c
  }

  /** "N noun", with an "s" when N > 1. */
  function Counted(n: nat, noun: string): string
  {
    Show(n) + " " + noun + (if n > 1 then "s" else "")
  }

  /** The card's count label: the image part and the video part, each shown
      only when nonzero, joined by a middle dot. */
  function CountLabel(images: nat, videos: nat): (s: string)
    ensures s == "" <==> images == 0 && videos == 0
  {
    if images > 0 && videos > 0 then Counted(images, "image") + Sep + Counted(videos, "video")
    else if images > 0 then Counted(images, "image")
    else if videos > 0 then Counted(videos, "video")
    else ""
  }

  /** The card's file label: "N file", with an "s" when N is not 1. */
  function FileLabel(n: nat): string
  {
    Show(n) + " file" + (if n != 1 then "s" else "")
  }

  /** The file label reads back as the count, followed by "files" unless the
      count is exactly one. */
  lemma FileLabelReads(n: nat)
    ensures ReadNat(FileLabel(n)) == Some((n, if n != 1 then " files" else " file"))
  {
    var noun := if n != 1 then " files" else " file";
    ReadShow(n, noun);
    assert FileLabel(n) == Show(n) + noun;
  }

  /** The cover glyph: a play circle for a videos-only project, else the
      images glyph. */
  function CoverIcon(images: nat, videos: nat): (s: string)
    ensures s == PlayCircleIcon <==> videos > 0 && images == 0
    ensures s == PlayCircleIcon || s == ImagesIcon
  {
    if videos > 0 && images == 0 then PlayCircleIcon else ImagesIcon
  }

  /** In terms of the items themselves: a project's glyph is the play circle
      exactly when it has a video and no image. */
  lemma CoverIconOfItems(items: seq<MediaItem>)
    ensures CoverIcon(CountOf(items, Image), CountOf(items, Video)) == PlayCircleIcon <==>
      && (exists k :: 0 <= k < |items| && items[k].kind == Video)
      && (forall k :: 0 <= k < |items| ==> items[k].kind != Image)
  {
  }

  /** Reads "N noun" (plural exactly when N > 1) at the front of s, where N
      is a positive numeral without leading zeros, as the label prints it. */
  function ReadCounted(s: string, noun: string): Option<(nat, string)>
  {
    match ReadNat(s)
    case None => None
    case Some((n, r)) =>
      var w := " " + noun + (if n > 1 then "s" else "");
      if s[0] == '0' then None
      else if |w| <= |r| && r[..|w|] == w then Some((n, r[|w|..])) else None
  }

  /** What ReadCounted accepts is a positive count printed as Counted
      prints it, followed by the rest. */
  lemma ReadCountedExact(s: string, noun: string)
    requires ReadCounted(s, noun).Some?
    ensures ReadCounted(s, noun).value.0 > 0
    ensures s == Counted(ReadCounted(s, noun).value.0, noun) + ReadCounted(s, noun).value.1
  {
    var (n, r) := ReadNat(s).value;
    var w := " " + noun + (if n > 1 then "s" else "");
    ReadNatExact(s);
    assert r == w + r[|w|..];
  }

  /** Recovers the image and video counts from a count label; None when the
      text is not a well-formed label. */
  function ParseCountLabel(s: string): Option<(nat, nat)>
  {
    if s == "" then Some((0, 0))
    else match ReadCounted(s, "image")
      case Some((i, r)) =>
        if r == "" then Some((i, 0))
        else if |Sep| <= |r| && r[..|Sep|] == Sep then
          match ReadCounted(r[|Sep|..], "video")
          case Some((v, r2)) => if r2 == "" then Some((i, v)) else None
          case None => None
        else None
      case None =>
        match ReadCounted(s, "video")
        case Some((v, r)) => if r == "" then Some((0, v)) else None
        case None => None
  }

  lemma ReadCountedOf(n: nat, noun: string, rest: string)
    requires n > 0 && |noun| > 0
    ensures ReadCounted(Counted(n, noun) + rest, noun) == Some((n, rest))
  {
    var w := " " + noun + (if n > 1 then "s" else "");
    assert Counted(n, noun) + rest == Show(n) + (w + rest);
    ReadShow(n, w + rest);
    ShowLeading(n);
    assert (w + rest)[..|w|] == w;
    assert (w + rest)[|w|..] == rest;
  }

  lemma ReadCountedVideoAsImage(v: nat)
    ensures ReadCounted(Counted(v, "video"), "image").None?
  {
    var w := " video" + (if v > 1 then "s" else "");
    assert Counted(v, "video") == Show(v) + w;
    ReadShow(v, w);
    assert w[1] == 'v';
  }

  lemma BothCountsRoundTrip(images: nat, videos: nat)
    requires images > 0 && videos > 0
    ensures ParseCountLabel(CountLabel(images, videos)) == Some((images, videos))
  {
    var rest := Sep + Counted(videos, "video");
    assert CountLabel(images, videos) == Counted(images, "image") + rest;
    ReadCountedOf(images, "image", rest);
    assert rest[..|Sep|] == Sep;
    assert rest[|Sep|..] == Counted(videos, "video") + "";
    ReadCountedOf(videos, "video", "");
  }

  /** Decoding a count label gives back the counts it was made from. */
  lemma CountLabelRoundTrip(images: nat, videos: nat)
    ensures ParseCountLabel(CountLabel(images, videos)) == Some((images, videos))
  {
    if images > 0 && videos > 0 {
      BothCountsRoundTrip(images, videos);
    } else if images > 0 {
      assert CountLabel(images, videos) == Counted(images, "image") + "";
      ReadCountedOf(images, "image", "");
    } else if videos > 0 {
      ReadCountedVideoAsImage(videos);
      assert CountLabel(images, videos) == Counted(videos, "video") + "";
      ReadCountedOf(videos, "video", "");
    }
  }

  /** Conversely, every text the decoder accepts is the label of the counts
      it returns: the decoder accepts nothing but well-formed labels. */
  lemma CountLabelExact(s: string)
    requires ParseCountLabel(s).Some?
    ensures s == CountLabel(ParseCountLabel(s).value.0, ParseCountLabel(s).value.1)
  {
    if s != "" {
      if ReadCounted(s, "image").Some? {
        ImageLabelExact(s);
      } else {
        ReadCountedExact(s, "video");
      }
    }
  }

  lemma ImageLabelExact(s: string)
    requires s != "" && ReadCounted(s, "image").Some? && ParseCountLabel(s).Some?
    ensures s == CountLabel(ParseCountLabel(s).value.0, ParseCountLabel(s).value.1)
  {
    var (i, r) := ReadCounted(s, "image").value;
    ReadCountedExact(s, "image");
    if r != "" {
      VideoPartExact(r);
    }
  }

  /** The part after the image count: " · " and a video count, nothing more. */
  lemma VideoPartExact(r: string)
    requires |Sep| <= |r| && r[..|Sep|] == Sep
    requires ReadCounted(r[|Sep|..], "video").Some? && ReadCounted(r[|Sep|..], "video").value.1 == ""
    ensures ReadCounted(r[|Sep|..], "video").value.0 > 0
    ensures r == Sep + Counted(ReadCounted(r[|Sep|..], "video").value.0, "video")
  {
    var t := r[|Sep|..];
    ReadCountedExact(t, "video");
    assert r == Sep + t;
  }

  /** What one project card shows, and what its button does: it opens the
      gallery `galleryId` at `startIndex`. */
  datatype Card = Card(
    galleryId: string,
    startIndex: int,
    title: string,
    icon: string,
    description: string,
    tags: seq<string>,
    cover: MediaItem,
    coverIcon: string,
    fileLabel: string,
    countLabel: string)

  /** `renderProjectCard` on a project with at least one item. */
  function RenderCard(p: Project): Card
    requires |p.items| > 0
  {
    var images := CountOf(p.items, Image);
    var videos := CountOf(p.items, Video);
    Card(
      p.id,
      0,
      p.title,
      if p.icon == "" then DefaultIcon else p.icon,
      p.description,
      p.tags,
      Cover(p.items),
      CoverIcon(images, videos),
      FileLabel(|p.items|),
      CountLabel(images, videos))
  }

  /** A card's button opens its own project at the first item; the card
      shows the project's title, description and tags in order, and its icon
      or the default folder icon when it has none. */
  lemma CardOpensItsProject(p: Project)
    requires |p.items| > 0
    ensures RenderCard(p).galleryId == p.id && RenderCard(p).startIndex == 0
    ensures RenderCard(p).title == p.title && RenderCard(p).description == p.description
    ensures RenderCard(p).tags == p.tags
    ensures RenderCard(p).icon == (if p.icon == "" then DefaultIcon else p.icon)
  {
  }

  /** The cover is the first image, or the first item when there is no image;
      the play glyph marks exactly the projects that have videos and no
      images. */
  lemma CardCover(p: Project)
    requires |p.items| > 0
    ensures RenderCard(p).cover in p.items
    ensures forall k :: IsFirstImage(p.items, k) ==> RenderCard(p).cover == p.items[k]
    ensures CountOf(p.items, Image) == 0 ==> RenderCard(p).cover == p.items[0]
    ensures RenderCard(p).coverIcon == PlayCircleIcon <==> CountOf(p.items, Video) > 0 && CountOf(p.items, Image) == 0
    ensures RenderCard(p).coverIcon == PlayCircleIcon || RenderCard(p).coverIcon == ImagesIcon
  {
  }

  /** The count label reads back as the image and video counts, which add up
      to the item count, so it is never empty on a card; the file label
      reads back as the item count, with "files" unless there is exactly one. */
  lemma CardLabels(p: Project)
    requires |p.items| > 0
    ensures ParseCountLabel(RenderCard(p).countLabel) == Some((CountOf(p.items, Image), CountOf(p.items, Video)))
    ensures CountOf(p.items, Image) + CountOf(p.items, Video) == |p.items|
    ensures RenderCard(p).countLabel != ""
    ensures ReadNat(RenderCard(p).fileLabel) == Some((|p.items|, if |p.items| != 1 then " files" else " file"))
  {
    CountsPartition(p.items);
    FileLabelReads(|p.items|);
    CountLabelRoundTrip(CountOf(p.items, Image), CountOf(p.items, Video));
  }

  // ---------------------------------------------------------------------
  // The grid

  /** Catalog positions, from i on, of the projects that get a card. */
  function SourcesFrom(catalog: seq<Project>, i: nat): seq<nat>
    requires i <= |catalog|
    decreases |catalog| - i
  {
    if i == |catalog| then []
    else (if |catalog[i].items| > 0 then [i] else []) + SourcesFrom(catalog, i + 1)
  }

  function CardSources(catalog: seq<Project>): seq<nat>
  {
    SourcesFrom(catalog, 0)
  }

  lemma {:induction false} SourcesFromShape(catalog: seq<Project>, i: nat)
    requires i <= |catalog|
    ensures forall k :: 0 <= k < |SourcesFrom(catalog, i)| ==>
              i <= SourcesFrom(catalog, i)[k] < |catalog| && |catalog[SourcesFrom(catalog, i)[k]].items| > 0
    ensures forall k, l :: 0 <= k < l < |SourcesFrom(catalog, i)| ==> SourcesFrom(catalog, i)[k] < SourcesFrom(catalog, i)[l]
    ensures forall j :: i <= j < |catalog| && |catalog[j].items| > 0 ==> j in SourcesFrom(catalog, i)
    decreases |catalog| - i
  {
    if i < |catalog| {
      SourcesFromShape(catalog, i + 1);
    }
  }

  /** cs holds, one for one, the renderings of the projects at positions pos. */
  predicate RendersAt(catalog: seq<Project>, pos: seq<nat>, cs: seq<Card>)
  {
    && |pos| == |cs|
    && forall k :: 0 <= k < |pos| ==>
         pos[k] < |catalog| && |catalog[pos[k]].items| > 0 && cs[k] == RenderCard(catalog[pos[k]])
  }

  /** The card sources are increasing positions of non-empty projects, and
      every non-empty project is among them. */
  lemma CardSourcesShape(catalog: seq<Project>)
    ensures forall k :: 0 <= k < |CardSources(catalog)| ==>
              CardSources(catalog)[k] < |catalog| && |catalog[CardSources(catalog)[k]].items| > 0
    ensures forall k, l :: 0 <= k < l < |CardSources(catalog)| ==> CardSources(catalog)[k] < CardSources(catalog)[l]
    ensures forall j :: 0 <= j < |catalog| && |catalog[j].items| > 0 ==> j in CardSources(catalog)
  {
    SourcesFromShape(catalog, 0);
  }

  /** The cards `initGallery` appends to the grid: one rendering per project
      with items, in catalog order. */
  function Cards(catalog: seq<Project>): seq<Card>
  {
    var pos := CardSources(catalog);
    CardSourcesShape(catalog);
    seq(|pos|, k requires 0 <= k < |pos| => RenderCard(catalog[pos[k]]))
  }

  /** The cards are exactly the renderings of the projects at the card
      sources, one each, in the same order. */
  lemma CardsFollowCatalog(catalog: seq<Project>)
    ensures RendersAt(catalog, CardSources(catalog), Cards(catalog))
  {
    CardSourcesShape(catalog);
  }

  /** Card k's button opens the project at card source k, at its first item. */
  lemma CardsOpenAtFirstItem(catalog: seq<Project>)
    ensures |Cards(catalog)| == |CardSources(catalog)|
    ensures forall k :: 0 <= k < |Cards(catalog)| ==>
              && CardSources(catalog)[k] < |catalog|
              && Cards(catalog)[k].galleryId == catalog[CardSources(catalog)[k]].id
              && Cards(catalog)[k].startIndex == 0
  {
    CardsFollowCatalog(catalog);
    forall k | 0 <= k < |Cards(catalog)|
      ensures Cards(catalog)[k].galleryId == catalog[CardSources(catalog)[k]].id
      ensures Cards(catalog)[k].startIndex == 0
    {
      CardOpensItsProject(catalog[CardSources(catalog)[k]]);
    }
  }

  /** What `initGallery` leaves in the grid: the cards, or the "No projects
      found" placeholder when no project has items. */
  datatype Grid = CardGrid(cards: seq<Card>) | Placeholder

  function Layout(catalog: seq<Project>): Grid
  {
    var cs := Cards(catalog);
    if |cs| == 0 then Placeholder else CardGrid(cs)
  }

  /** The placeholder appears exactly when no project has items. */
  lemma PlaceholderIffNoItems(catalog: seq<Project>)
    ensures Layout(catalog) == Placeholder <==> forall j :: 0 <= j < |catalog| ==> |catalog[j].items| == 0
  {
    CardSourcesShape(catalog);
    CardsFollowCatalog(catalog);
    var pos := CardSources(catalog);
    if |pos| > 0 {
      assert |catalog[pos[0]].items| > 0;
    } else {
      assert pos == [];
    }
  }

  /** With unique ids every card's button opens the very project the card was
      rendered from, which therefore has items. */
  lemma CardsOpenTheirProject(catalog: seq<Project>)
    requires UniqueIds(catalog)
    ensures forall k :: 0 <= k < |Cards(catalog)| ==>
              && Cards(catalog)[k].galleryId in GalleryIndex(catalog)
              && |GalleryIndex(catalog)[Cards(catalog)[k].galleryId].items| > 0
              && RenderCard(GalleryIndex(catalog)[Cards(catalog)[k].galleryId]) == Cards(catalog)[k]
  {
    CardSourcesShape(catalog);
    CardsFollowCatalog(catalog);
    var pos := CardSources(catalog);
    forall k | 0 <= k < |Cards(catalog)|
      ensures Cards(catalog)[k].galleryId in GalleryIndex(catalog)
      ensures GalleryIndex(catalog)[Cards(catalog)[k].galleryId] == catalog[pos[k]]
    {
      var id := catalog[pos[k]].id;
      assert LastWith(catalog, id, pos[k]);
      GalleryIndexLastWins(catalog, id, pos[k]);
    }
  }

  /** Without unique ids the claim above fails: a later empty project with the
      same id takes over the index, and the earlier project's card opens it. */
  lemma DuplicateIdCardOpensEmptyProject()
    ensures var catalog := [
              Project("a", "A", "", "", [], [MediaItem(Image, "a.png")]),
              Project("a", "A, empty", "", "", [], [])];
            && |Cards(catalog)| == 1
            && Cards(catalog)[0].galleryId in GalleryIndex(catalog)
            && |GalleryIndex(catalog)[Cards(catalog)[0].galleryId].items| == 0
  {
    var catalog := [
      Project("a", "A", "", "", [], [MediaItem(Image, "a.png")]),
      Project("a", "A, empty", "", "", [], [])];
    assert catalog[1..][1..] == [];
    assert catalog[..1][..0] == [];
  }
}

=== FILE: contact_form.dfy ===
/** Validation of the simulated contact form (the submit handler of
    js/script.js): trim the three fields, default an empty subject, require
    email and message, then check the email against
    /^[^\s@]+@[^\s@]+\.[^\s@]+$/. */
module ContactForm {
  import opened Wrappers

  /** The characters JavaScript's `\s` and `String.prototype.trim` treat as
      white space: ECMAScript WhiteSpace and LineTerminator. */
  predicate IsSpace(c: char)
  {
    || c == '\t' || c == '\n' || c == '\U{000B}' || c == '\U{000C}' || c == '\r' || c == ' '
    || c == '\U{00A0}' || c == '\U{1680}' || ('\U{2000}' <= c <= '\U{200A}')
    || c == '\U{2028}' || c == '\U{2029}' || c == '\U{202F}' || c == '\U{205F}'
    || c == '\U{3000}' || c == '\U{FEFF}'
  }

  predicate AllSpace(s: string)
  {
    forall k :: 0 <= k < |s| ==> IsSpace(s[k])
  }

  /** Drops leading white space: the result is a suffix of s, everything
      dropped is white space, and it does not start with white space. */
  function TrimStart(s: string): (r: string)
    ensures |r| <= |s| && r == s[|s| - |r|..]
    ensures forall k :: 0 <= k < |s| - |r| ==> IsSpace(s[k])
    ensures r != [] ==> !IsSpace(r[0])
  {
    if s != [] && IsSpace(s[0]) then TrimStart(s[1..]) else s
  }

  /** Drops trailing white space: the result is a prefix of s, everything
      dropped is white space, and it does not end with white space. */
  function TrimEnd(s: string): (r: string)
    ensures |r| <= |s| && r == s[..|r|]
    ensures forall k :: |r| <= k < |s| ==> IsSpace(s[k])
    ensures r != [] ==> !IsSpace(r[|r| - 1])
  {
    if s != [] && IsSpace(s[|s| - 1]) then TrimEnd(s[..|s| - 1]) else s
  }

  /** r is s[lo..] cut to |r| characters, and everything cut off either end
      is white space. */
  ghost predicate StrippedFrom(s: string, r: string, lo: int)
  {
    && 0 <= lo <= lo + |r| <= |s|
    && r == s[lo..lo + |r|]
    && AllSpace(s[..lo])
    && AllSpace(s[lo + |r|..])
  }

  /** `String.prototype.trim`: s with white space stripped from both ends.
      The result is empty exactly when s is all white space. */
  function Trim(s: string): (r: string)
    ensures exists lo :: StrippedFrom(s, r, lo)
    ensures r != [] ==> !IsSpace(r[0]) && !IsSpace(r[|r| - 1])
    ensures r == [] <==> AllSpace(s)
  {
    var a := TrimStart(s);
    var r := TrimEnd(a);
    var lo := |s| - |a|;
    assert StrippedFrom(s, r, lo);
    r
  }

  predicate FieldChar(c: char)
  {
    c != '@' && !IsSpace(c)
  }

  /** One `[^\s@]+` run. */
  predicate Field(s: string)
  {
    |s| > 0 && forall k :: 0 <= k < |s| ==> FieldChar(s[k])
  }

  /** Position of the first c in s. */
  function IndexOf(s: string, c: char): (r: Option<nat>)
    ensures r.Some? ==> r.value < |s| && s[r.value] == c && forall j :: 0 <= j < r.value ==> s[j] != c
    ensures r.None? ==> forall j :: 0 <= j < |s| ==> s[j] != c
  {
    if s == [] then None
    else if s[0] == c then Some(0)
    else match IndexOf(s[1..], c)
      case None => None
      case Some(k) => Some(k + 1)
  }

  /** Some '.' with at least one character on either side. */
  predicate HasInnerDot(r: string)
  {
    exists p :: 1 <= p < |r| - 1 && r[p] == '.'
  }

  /** The email check as a scan: split at the first '@'; both sides are runs
      of non-space, non-'@' characters, and the domain side has an inner dot. */
  predicate EmailMatches(e: string)
  {
    match IndexOf(e, '@')
    case None => false
    case Some(at) => Field(e[..at]) && Field(e[at + 1..]) && HasInnerDot(e[at + 1..])
  }

  /** e reads as a@b.c with the three parts as in the regular expression. */
  ghost predicate SplitsAs(e: string, a: string, b: string, c: string)
  {
    e == a + "@" + b + "." + c && Field(a) && Field(b) && Field(c)
  }

  /** The regular expression's language, stated directly. */
  ghost predicate EmailShape(e: string)
  {
    exists a, b, c :: SplitsAs(e, a, b, c)
  }

  lemma ShapeMatches(e: string, a: string, b: string, c: string)
    requires SplitsAs(e, a, b, c)
    ensures EmailMatches(e)
  {
    var at := |a|;
    assert e[at] == '@';
    assert forall j :: 0 <= j < at ==> e[j] == a[j];
    var i := IndexOf(e, '@');
    assert i == Some(at);
    assert e[..at] == a;
    var rest := e[at + 1..];
    assert rest == b + "." + c;
    assert rest[|b|] == '.';
    assert forall k :: 0 <= k < |rest| ==> FieldChar(rest[k]) by {
      forall k | 0 <= k < |rest|
        ensures FieldChar(rest[k])
      {
        if k < |b| {
          assert rest[k] == b[k];
        } else if k > |b| {
          assert rest[k] == c[k - |b| - 1];
        }
      }
    }
  }

  /** Cutting a run at an inner dot leaves a run on either side. */
  lemma DotSplitsField(r: string, p: int)
    requires Field(r) && 1 <= p < |r| - 1 && r[p] == '.'
    ensures Field(r[..p]) && Field(r[p + 1..])
    ensures r == r[..p] + "." + r[p + 1..]
  {
    assert forall k :: 0 <= k < p ==> r[..p][k] == r[k];
    assert forall k :: p + 1 <= k < |r| ==> r[p + 1..][k - p - 1] == r[k];
  }

  lemma MatchesShape(e: string)
    requires EmailMatches(e)
    ensures EmailShape(e)
  {
    var at := IndexOf(e, '@').value;
    var a, rest := e[..at], e[at + 1..];
    var p :| 1 <= p < |rest| - 1 && rest[p] == '.';
    DotSplitsField(rest, p);
    var b, c := rest[..p], rest[p + 1..];
    assert e == a + "@" + rest by {
      assert e[at] == '@';
      assert e == e[..at] + [e[at]] + e[at + 1..];
    }
    assert SplitsAs(e, a, b, c);
  }

  /** The scan accepts exactly the addresses of the form a@b.c. */
  lemma EmailMatchesIffShape(e: string)
    ensures EmailMatches(e) <==> EmailShape(e)
  {
    if EmailMatches(e) {
      MatchesShape(e);
    }
    if EmailShape(e) {
      var a, b, c :| SplitsAs(e, a, b, c);
      ShapeMatches(e, a, b, c);
    }
  }

  const DefaultSubject := "Portfolio Inquiry"

  datatype FormError = MissingFields | InvalidEmail

  /** An accepted form: what goes into the compose link. */
  datatype Submission = Submission(email: string, subject: string, message: string)

  /** The submit handler's checks. A blank email or message is the
      missing-fields error, checked before the address; an address that is
      not a@b.c is the invalid-email error; otherwise the trimmed fields are
      accepted, with a blank subject replaced by the default. */
  function Validate(email: string, subject: string, message: string): (r: Result<Submission, FormError>)
    ensures r == Err(MissingFields) <==> AllSpace(email) || AllSpace(message)
    ensures r == Err(InvalidEmail) <==> !AllSpace(email) && !AllSpace(message) && !EmailShape(Trim(email))
    ensures r.Ok? ==>
      && r.value.email == Trim(email) && EmailShape(r.value.email)
      && r.value.message == Trim(message) && r.value.message != ""
      && r.value.subject == (if AllSpace(subject) then DefaultSubject else Trim(subject))
  {
    var e := Trim(email);
    var m := Trim(message);
    var s := if Trim(subject) == "" then DefaultSubject else Trim(subject);
    EmailMatchesIffShape(e);
    if e == "" || m == "" then Err(MissingFields)
    else if !EmailMatches(e) then Err(InvalidEmail)
    else Ok(Submission(e, s, m))
  }
}

=== FILE: decimal.dfy ===
/** Decimal numerals as a JavaScript template literal prints a non-negative
    integer (`${n}`), and a reader that recovers the number from the text.
    JavaScript switches to exponent form from 10^21 on; `Show` is the
    printed form below that bound, which every count and index the page
    prints is far under. */
module Decimal {
  import opened Wrappers

  predicate IsDigit(c: char) {
    '0' <= c <= '9'
  }

  predicate AllDigits(s: string) {
    forall k :: 0 <= k < |s| ==> IsDigit(s[k])
  }

  function DigitChar(d: nat): (c: char)
    requires d < 10
    ensures IsDigit(c)
  {
    ('0' as int + d) as char
  }

  function DigitValue(c: char): (d: nat)
    requires IsDigit(c)
    ensures d < 10
  {
    c as int - '0' as int
  }

  /** The decimal numeral of n: no sign, no leading zeros, never empty. */
  function Show(n: nat): (s: string)
    ensures |s| > 0 && AllDigits(s)
  {
    if n < 10 then [DigitChar(n)] else Show(n / 10) + [DigitChar(n % 10)]
  }

  /** The number a string of digits denotes. */
  function Value(s: string): nat
    requires AllDigits(s)
  {
    if s == [] then 0 else Value(s[..|s| - 1]) * 10 + DigitValue(s[|s| - 1])
  }

  /** Length of the run of digits at the front of s. */
  function DigitRun(s: string): (k: nat)
    ensures k <= |s| && AllDigits(s[..k])
    ensures k < |s| ==> !IsDigit(s[k])
  {
    if s == [] || !IsDigit(s[0]) then 0
    else
      var k := 1 + DigitRun(s[1..]);
      assert s[..k] == [s[0]] + s[1..][..k - 1];
      k
  }

  /** Reads the numeral at the front of s: its value and the text after it,
      or None when s does not start with a digit. */
  function ReadNat(s: string): Option<(nat, string)>
  {
    var k := DigitRun(s);
    if k == 0 then None else Some((Value(s[..k]), s[k..]))
  }

  lemma {:induction false} ValueOfShow(n: nat)
    ensures Value(Show(n)) == n
  {
    if n >= 10 {
      var s := Show(n);
      assert s[..|s| - 1] == Show(n / 10);
      ValueOfShow(n / 10);
    }
  }

  lemma {:induction false} DigitRunOfDigits(d: string, rest: string)
    requires AllDigits(d)
    requires rest == [] || !IsDigit(rest[0])
    ensures DigitRun(d + rest) == |d|
  {
    if d == [] {
      assert d + rest == rest;
    } else {
      assert (d + rest)[1..] == d[1..] + rest;
      DigitRunOfDigits(d[1..], rest);
    }
  }

  /** A positive number's numeral does not start with a zero. */
  lemma {:induction false} ShowLeading(n: nat)
    requires n > 0
    ensures Show(n)[0] != '0'
  {
    if n >= 10 {
      ShowLeading(n / 10);
    }
  }

  lemma {:induction false} ValuePositive(d: string)
    requires |d| > 0 && AllDigits(d) && d[0] != '0'
    ensures Value(d) > 0
  {
    if |d| > 1 {
      ValuePositive(d[..|d| - 1]);
    }
  }

  /** A numeral without a leading zero is exactly how its value prints. */
  lemma {:induction false} ShowOfValue(d: string)
    requires |d| > 0 && AllDigits(d) && d[0] != '0'
    ensures Show(Value(d)) == d
  {
    var p := d[..|d| - 1];
    if |d| > 1 {
      ValuePositive(p);
      ShowOfValue(p);
      assert d == p + [d[|d| - 1]];
    }
  }

  /** Conversely, whatever ReadNat accepts from a text that does not start
      with '0' is a printed number followed by the rest. */
  lemma ReadNatExact(s: string)
    requires |s| > 0 && s[0] != '0' && ReadNat(s).Some?
    ensures s == Show(ReadNat(s).value.0) + ReadNat(s).value.1
  {
    var k := DigitRun(s);
    ShowOfValue(s[..k]);
    assert s == s[..k] + s[k..];
  }

  /** Reading a printed number back, followed by any text that does not
      start with a digit, recovers the number and that text. */
  lemma ReadShow(n: nat, rest: string)
    requires rest == [] || !IsDigit(rest[0])
    ensures ReadNat(Show(n) + rest) == Some((n, rest))
  {
    var s := Show(n) + rest;
    DigitRunOfDigits(Show(n), rest);
    assert s[..|Show(n)|] == Show(n);
    assert s[|Show(n)|..] == rest;
    ValueOfShow(n);
  }
}

=== FILE: fixtures.dfy ===
/** Two records of data/projects.js ("Presentation Design" and "Training"),
    booted as a catalog and driven through the viewer. The long description
    texts are left empty; nothing here depends on them. */
module Fixtures {
  import opened Wrappers
  import opened Media
  import opened Catalog
  import opened Lightbox
  import opened Page

  const PresentationDesign := Project(
    "Presentation Design",
    "Presentation Design",
    "fas fa-file-powerpoint",
    "",
    ["Presentation", "Slideshow", "PowerPoint"],
    [ MediaItem(Image, "images/Projects/Presentation Design/1.jpg"),
      MediaItem(Image, "images/Projects/Presentation Design/2.jpg"),
      MediaItem(Image, "images/Projects/Presentation Design/3.jpg"),
      MediaItem(Image, "images/Projects/Presentation Design/4.jpg"),
      MediaItem(Image, "images/Projects/Presentation Design/5.jpg"),
      MediaItem(Image, "images/Projects/Presentation Design/6.jpg"),
      MediaItem(Image, "images/Projects/Presentation Design/7.jpg"),
      MediaItem(Video, "images/Projects/Presentation Design/Slide.mp4")])

  const Training := Project(
    "Training",
    "Training",
    "fas fa-chalkboard-teacher",
    "",
    ["Training", "Software", "Workflow"],
    [ MediaItem(Image, "images/Projects/Training/1.jpg"),
      MediaItem(Image, "images/Projects/Training/2.png"),
      MediaItem(Image, "images/Projects/Training/3.png"),
      MediaItem(Image, "images/Projects/Training/4.jpg")])

  const Sample: seq<Project> := [PresentationDesign, Training]

  lemma SampleIndex()
    ensures GalleryIndex(Sample) == map["Presentation Design" := PresentationDesign, "Training" := Training]
  {
    assert Sample[..1] == [PresentationDesign];
    assert Sample[..1][..0] == [];
    assert GalleryIndex(Sample[..1]) == map[][PresentationDesign.id := PresentationDesign];
  }

  lemma SampleSources()
    ensures CardSources(Sample) == [0, 1]
  {
    assert SourcesFrom(Sample, 2) == [];
    assert SourcesFrom(Sample, 1) == [1];
  }

  /** Both records get a card. */
  lemma SampleGrid()
    ensures |Cards(Sample)| == 2
    ensures CardsOf(Boot(Sample).grid) == Cards(Sample)
  {
    SampleSources();
    CardsOpenAtFirstItem(Sample);
  }

  /** The two ids differ, so every card of the booted sample opens. */
  lemma SampleCards()
    ensures CardsOpenable(Boot(Sample))
    ensures CardsOf(Boot(Sample).grid) == Cards(Sample)
    ensures |Cards(Sample)| == 2
  {
    assert UniqueIds(Sample);
    UniqueIdsMakeCardsOpenable(Sample);
    SampleGrid();
  }

  /** Card k of the booted sample opens record k at its first item. */
  lemma SampleCardOpens(k: nat, p: Project)
    requires k < 2 && p == Sample[k]
    ensures k < |CardsOf(Boot(Sample).grid)|
    ensures CardsOf(Boot(Sample).grid)[k].galleryId == p.id
    ensures CardsOf(Boot(Sample).grid)[k].startIndex == 0
  {
    SampleSources();
    assert CardSources(Sample)[k] == k;
    BootCardOpens(Sample, k);
  }

  lemma SampleLookup(k: nat, p: Project)
    requires k < 2 && p == Sample[k]
    ensures p.id in Boot(Sample).galleries && Boot(Sample).galleries[p.id] == p
  {
    assert UniqueIds(Sample);
    UniqueIdsLookup(Sample, k);
  }

  lemma CounterTexts()
    ensures CounterText(0, 4) == "1 / 4"
    ensures CounterText(7, 8) == "8 / 8"
  {
    assert Decimal.Show(1) == [Decimal.DigitChar(1)] && Decimal.DigitChar(1) == '1';
    assert Decimal.Show(4) == [Decimal.DigitChar(4)] && Decimal.DigitChar(4) == '4';
    assert Decimal.Show(8) == [Decimal.DigitChar(8)] && Decimal.DigitChar(8) == '8';
  }

  /** The viewer right after a card button is pressed on the booted sample. */
  lemma OpenedFromCard(k: nat, p: Project)
    requires k < 2 && p == Sample[k]
    ensures CardsOpenable(Boot(Sample))
    ensures var v := Handle(Boot(Sample), CardButton(k)).viewer;
      && v.gallery == Some(p) && v.index == 0 && Consistent(v)
  {
    SampleCards();
    SampleCardOpens(k, p);
    SampleLookup(k, p);
    HandleCardButton(Boot(Sample), k);
  }

  /** Opening "Training" from its card shows "1 / 4" with "previous"
      disabled and "next" enabled. */
  lemma TrainingOpensOnFirstItem()
    ensures CardsOpenable(Boot(Sample))
    ensures var v := Handle(Boot(Sample), CardButton(1)).viewer;
      && v.gallery == Some(Training)
      && v.view.counter == "1 / 4"
      && v.view.prevDisabled && !v.view.nextDisabled
  {
    OpenedFromCard(1, Training);
    CounterTexts();
  }

  /** Opening "Presentation Design" and pressing ArrowRight seven times reaches
      its video: "8 / 8", a playing video on the stage, "next" disabled. */
  lemma PresentationEndsOnVideo()
    ensures CardsOpenable(Boot(Sample))
    ensures var v := Presses(Handle(Boot(Sample), CardButton(0)).viewer, 1, 7);
      && v.gallery == Some(PresentationDesign)
      && v.view.counter == "8 / 8"
      && v.view.stage == VideoStage("images/Projects/Presentation Design/Slide.mp4", true)
      && v.view.nextDisabled && !v.view.prevDisabled
  {
    OpenedFromCard(0, PresentationDesign);
    CounterTexts();
    var v0 := Handle(Boot(Sample), CardButton(0)).viewer;
    NextPressesSaturate(v0, 7);
    var v := Presses(v0, 1, 7);
    assert v.index == 7 && Consistent(v);
    assert v.view.stage == StageFor(PresentationDesign, 7);
  }
}

=== FILE: lightbox.dfy ===
/** The lightbox viewer of js/script.js ("Lightbox core"): the state
    `currentGallery` / `currentIndex` plus whether the overlay is open, and a
    View record holding every value the viewer writes into the page. The page
    keeps what was last written, so the view is part of the state: closing
    leaves the old title, counter, thumbnails and stage in place. */
module Lightbox {
  import opened Wrappers
  import opened Decimal
  import opened Media

  /** One thumbnail of the strip: video items get a play glyph, image items a
      preview of their source; `active` is the highlighted one. */
  datatype Thumb = Thumb(video: bool, preview: Option<string>, active: bool)

  /** The stage: nothing yet, an image with its alt text, or a video element
      (created with autoplay; `playing` turns false when the viewer pauses it). */
  datatype Stage =
    | Blank
    | ImageStage(src: string, alt: string)
    | VideoStage(src: string, playing: bool)

  /** `stageCount` counts the stage elements created so far: `showSlide`
      empties the stage and builds a new image or video element every time,
      even for the item already shown, so a video starts again from its
      beginning. */
  datatype View = View(
    title: string,
    counter: string,
    prevDisabled: bool,
    nextDisabled: bool,
    thumbs: seq<Thumb>,
    stage: Stage,
    stageCount: nat)

  datatype Viewer = Viewer(gallery: Option<Project>, index: int, overlayOpen: bool, view: View)

  /** Page load: no gallery, index 0, overlay closed, nothing rendered. */
  const Initial: Viewer := Viewer(None, 0, false, View("", "", false, false, [], Blank, 0))

  /** `Math.max(0, Math.min(i, n - 1))`. */
  function Clamp(i: int, n: nat): (r: int)
    ensures n == 0 ==> r == 0
    ensures n > 0 ==> 0 <= r < n
    ensures n > 0 && 0 <= i < n ==> r == i
    ensures n > 0 && i < 0 ==> r == 0
    ensures n > 0 && i >= n ==> r == n - 1
  {
    var lo := if i < n - 1 then i else n - 1;
    if lo < 0 then 0 else lo
  }

  function ThumbFor(item: MediaItem, active: bool): Thumb
  {
    Thumb(item.kind == Video, if item.kind == Video then None else Some(item.src), active)
  }

  /** The strip `openLightbox` builds: one thumbnail per item, none active. */
  function BuildThumbs(items: seq<MediaItem>): seq<Thumb>
  {
    seq(|items|, k requires 0 <= k < |items| => ThumbFor(items[k], false))
  }

  /** `classList.toggle('active', i === index)` over the existing strip. */
  function MarkActive(ts: seq<Thumb>, index: int): seq<Thumb>
  {
    seq(|ts|, k requires 0 <= k < |ts| => ts[k].(active := k == index))
  }

  /** The counter text `${index + 1} / ${n}`. */
  function CounterText(index: nat, n: nat): string
  {
    Show(index + 1) + " / " + Show(n)
  }

  /** Reads "a / b" back into (a, b). */
  function ParseCounter(s: string): Option<(nat, nat)>
  {
    match ReadNat(s)
    case None => None
    case Some((a, r)) =>
      if |r| < 3 || r[..3] != " / " then None
      else match ReadNat(r[3..])
        case None => None
        case Some((b, r2)) => if r2 == [] then Some((a, b)) else None
  }

  /** The counter shows the 1-based position and the item count. */
  lemma CounterRoundTrip(index: nat, n: nat)
    ensures ParseCounter(CounterText(index, n)) == Some((index + 1, n))
  {
    var tail := " / " + Show(n);
    assert CounterText(index, n) == Show(index + 1) + tail;
    ReadShow(index + 1, tail);
    assert tail[..3] == " / ";
    assert tail[3..] == Show(n) + [];
    ReadShow(n, []);
  }

  /** The stage for item i: a playing video, or the image with alt text
      "<title> — <i + 1>". */
  function StageFor(p: Project, i: nat): Stage
    requires i < |p.items|
  {
    var item := p.items[i];
    if item.kind == Video then VideoStage(item.src, true)
    else ImageStage(item.src, p.title + " \U{2014} " + Show(i + 1))
  }

  predicate Playing(s: Stage)
  {
    s.VideoStage? && s.playing
  }

  /** `vid.pause()` on the stage's video, if it has one. */
  function Paused(s: Stage): Stage
  {
    if s.VideoStage? then s.(playing := false) else s
  }

  /** What `showSlide(i)` writes for project p: the counter, the prev/next
      disabled flags, the single active thumbnail, and the stage. */
  predicate Renders(w: View, p: Project, i: int)
  {
    && 0 <= i < |p.items|
    && w.counter == CounterText(i, |p.items|)
    && w.prevDisabled == (i == 0)
    && w.nextDisabled == (i == |p.items| - 1)
    && (forall k :: 0 <= k < |w.thumbs| ==> (w.thumbs[k].active <==> k == i))
    && w.stage == StageFor(p, i)
  }

  /** What `openLightbox` establishes for the open gallery: overlay open,
      title, and one thumbnail per item in item order. */
  predicate Framed(v: Viewer)
  {
    v.gallery.Some? ==>
      var p := v.gallery.value;
      && |p.items| > 0
      && v.overlayOpen
      && v.view.title == p.title
      && |v.view.thumbs| == |p.items|
      && forall k :: 0 <= k < |p.items| ==> v.view.thumbs[k] == ThumbFor(p.items[k], v.view.thumbs[k].active)
  }

  /** The state/view invariant: an open gallery is framed and its current
      item rendered. */
  predicate Consistent(v: Viewer)
  {
    Framed(v) && (v.gallery.Some? ==> Renders(v.view, v.gallery.value, v.index))
  }

  /** `showSlide` reads `items[0]` of an empty list otherwise. */
  predicate Sane(v: Viewer)
  {
    v.gallery.Some? ==> |v.gallery.value.items| > 0
  }

  /** `showSlide(index)`. */
  function ShowSlide(v: Viewer, index: int): (r: Viewer)
    requires Sane(v)
    ensures Sane(r)
    ensures v.gallery.None? ==> r == v
    ensures v.gallery.Some? ==>
      && r.gallery == v.gallery
      && r.overlayOpen == v.overlayOpen
      && r.index == Clamp(index, |v.gallery.value.items|)
      && Renders(r.view, v.gallery.value, r.index)
      && r.view.title == v.view.title
      && |r.view.thumbs| == |v.view.thumbs|
      && forall k :: 0 <= k < |v.view.thumbs| ==> r.view.thumbs[k] == v.view.thumbs[k].(active := r.view.thumbs[k].active)
    ensures v.gallery.Some? ==> r.view.stageCount == v.view.stageCount + 1
    ensures Framed(v) ==> Consistent(r)
  {
    if v.gallery.None? then v
    else
      var p := v.gallery.value;
      var n := |p.items|;
      var i := Clamp(index, n);
      v.(index := i,
         view := v.view.(
           stage := StageFor(p, i),
           stageCount := v.view.stageCount + 1,
           counter := CounterText(i, n),
           prevDisabled := i == 0,
           nextDisabled := i == n - 1,
           thumbs := MarkActive(v.view.thumbs, i)))
  }

  /** `openLightbox(id, start)` over the gallery index g. An unknown id clears
      the current gallery and changes nothing else. */
  function Open(g: map<string, Project>, v: Viewer, id: string, start: int): (r: Viewer)
    requires id in g ==> |g[id].items| > 0
    ensures id !in g ==> r.gallery.None? && r.index == v.index && r.overlayOpen == v.overlayOpen && r.view == v.view
    ensures id in g ==>
      && r.gallery == Some(g[id])
      && r.index == Clamp(start, |g[id].items|)
      && r.view.stageCount == v.view.stageCount + 1
      && Consistent(r)
    ensures id in g ==>
      && |r.view.thumbs| == |g[id].items|
      && forall k :: 0 <= k < |g[id].items| ==>
           && (r.view.thumbs[k].video <==> g[id].items[k].kind == Video)
           && (r.view.thumbs[k].active <==> k == r.index)
  {
    if id !in g then v.(gallery := None)
    else
      var p := g[id];
      var framed := Viewer(Some(p), start, true, v.view.(title := p.title, thumbs := BuildThumbs(p.items)));
      ShowSlide(framed, start)
  }

  /** `closeLightbox`: hides the overlay, pauses a video on the stage and
      forgets the gallery; the index and everything else on screen stay. */
  function Close(v: Viewer): (r: Viewer)
    ensures r.gallery.None? && !r.overlayOpen && r.index == v.index
    ensures r.view == v.view.(stage := r.view.stage)
    ensures !Playing(r.view.stage)
    ensures v.view.stage.VideoStage? ==> r.view.stage == v.view.stage.(playing := false)
    ensures !v.view.stage.VideoStage? ==> r.view.stage == v.view.stage
  {
    Viewer(None, v.index, false, v.view.(stage := Paused(v.view.stage)))
  }

  /** v with its stage element replaced by a fresh one showing the same item. */
  function Restaged(v: Viewer): Viewer
  {
    v.(view := v.view.(stageCount := v.view.stageCount + 1))
  }

  /** Showing a slide that clamps to the current index changes nothing but
      the stage element, which is built anew (a video restarts, playing). */
  lemma {:induction false} ReshowOnlyRestages(v: Viewer, j: int)
    requires Consistent(v) && v.gallery.Some?
    requires Clamp(j, |v.gallery.value.items|) == v.index
    ensures ShowSlide(v, j) == Restaged(v)
  {
    var r := ShowSlide(v, j);
    assert r.view.thumbs == v.view.thumbs;
  }

  /** No wrap-around: a step back from the first item and a step forward
      from the last (ArrowLeft and ArrowRight there) keep the viewer where it
      is; only the stage element is rebuilt. */
  lemma BoundaryNavigationOnlyRestages(v: Viewer)
    requires Consistent(v) && v.gallery.Some?
    ensures v.index == 0 ==> ShowSlide(v, v.index - 1) == Restaged(v)
    ensures v.index == |v.gallery.value.items| - 1 ==> ShowSlide(v, v.index + 1) == Restaged(v)
  {
    if v.index == 0 {
      ReshowOnlyRestages(v, v.index - 1);
    }
    if v.index == |v.gallery.value.items| - 1 {
      ReshowOnlyRestages(v, v.index + 1);
    }
  }

  /** Stepping k times with `showSlide(currentIndex + step)`: ArrowRight
      (step 1) or ArrowLeft (step -1) pressed k times. The "next" and
      "previous" buttons reach the same index, since they are disabled
      exactly where the step would be clamped back. */
  function Presses(v: Viewer, step: int, k: nat): (r: Viewer)
    requires Sane(v)
    ensures Sane(r)
    ensures v.gallery.Some? ==> r.gallery == v.gallery
    ensures Consistent(v) ==> Consistent(r)
    decreases k
  {
    if k == 0 then v else Presses(ShowSlide(v, v.index + step), step, k - 1)
  }

  /** k steps forward move k items forward but stop at the last item:
      no wrap-around. */
  lemma {:induction false} NextPressesSaturate(v: Viewer, k: nat)
    requires Sane(v) && v.gallery.Some? && 0 <= v.index < |v.gallery.value.items|
    ensures Presses(v, 1, k).index ==
            if v.index + k < |v.gallery.value.items| then v.index + k else |v.gallery.value.items| - 1
    decreases k
  {
    if k > 0 {
      var v1 := ShowSlide(v, v.index + 1);
      assert v1.index == Clamp(v.index + 1, |v.gallery.value.items|);
      assert Presses(v, 1, k) == Presses(v1, 1, k - 1);
      NextPressesSaturate(v1, k - 1);
    }
  }

  /** k steps back move k items back but stop at the first item. */
  lemma {:induction false} PrevPressesSaturate(v: Viewer, k: nat)
    requires Sane(v) && v.gallery.Some? && 0 <= v.index < |v.gallery.value.items|
    ensures Presses(v, -1, k).index == if v.index - k >= 0 then v.index - k else 0
    decreases k
  {
    if k > 0 {
      var v1 := ShowSlide(v, v.index - 1);
      assert v1.index == Clamp(v.index - 1, |v.gallery.value.items|);
      assert Presses(v, -1, k) == Presses(v1, -1, k - 1);
      PrevPressesSaturate(v1, k - 1);
    }
  }
}

=== FILE: media.dfy ===
/** The catalog's records: projects and their ordered media items
    (js/script.js reads them from `window.projectData`, see data/projects.js). */
module Media {

  /** A media item is an image or a video; script.js compares the `type`
      field with 'image' in the counts and with 'video' elsewhere, which for
      two values is the same test. */
  datatype MediaType = Image | Video

  datatype MediaItem = MediaItem(kind: MediaType, src: string)

  /** A project record. A missing `icon` or `description` is modelled as "",
      a missing `tags` or `items` list as [], which is how script.js's
      `||` defaults and its `!p.items` test in `initGallery` read them. */
  datatype Project = Project(
    id: string,
    title: string,
    icon: string,
    description: string,
    tags: seq<string>,
    items: seq<MediaItem>)

  /** Number of items of kind t (the length of `items.filter(...)`). */
  function CountOf(items: seq<MediaItem>, t: MediaType): (c: nat)
    ensures c <= |items|
    ensures c == 0 <==> forall k :: 0 <= k < |items| ==> items[k].kind != t
  {
    if items == [] then 0
    else (if items[0].kind == t then 1 else 0) + CountOf(items[1..], t)
  }

  /** Every item is counted exactly once, as an image or as a video. */
  lemma {:induction false} CountsPartition(items: seq<MediaItem>)
    ensures CountOf(items, Image) + CountOf(items, Video) == |items|
  {
    if items != [] {
      CountsPartition(items[1..]);
    }
  }
}

=== FILE: page.dfy ===
/** The page around the lightbox: the catalog booted by `initGallery`, and the
    event bindings of js/script.js (card buttons, close/prev/next buttons, a
    click on the overlay, thumbnail clicks and the keydown handler). */
module Page {
  import opened Media
  import opened Catalog
  import opened Lightbox

  datatype Page = Page(galleries: map<string, Project>, grid: Grid, viewer: Viewer)

  /** A user action. `OverlayClick(true)` is a click on the backdrop itself,
      `OverlayClick(false)` one on the content inside it. */
  datatype Event =
    | CardButton(card: nat)
    | CloseButton
    | OverlayClick(onBackdrop: bool)
    | PrevButton
    | NextButton
    | ThumbClick(thumb: nat)
    | KeyDown(key: string)

  /** After `initGallery(catalog)`, before any user action. */
  function Boot(catalog: seq<Project>): Page
  {
    Page(GalleryIndex(catalog), Layout(catalog), Initial)
  }

  function CardsOf(grid: Grid): seq<Card>
  {
    if grid.CardGrid? then grid.cards else []
  }

  /** Every card's button opens a gallery that has items. */
  predicate CardsOpenable(pg: Page)
  {
    forall k :: 0 <= k < |CardsOf(pg.grid)| ==>
      CardsOf(pg.grid)[k].galleryId in pg.galleries && |pg.galleries[CardsOf(pg.grid)[k].galleryId].items| > 0
  }

  /** The keydown listener: ignored unless the overlay is open; Escape
      closes, ArrowRight and ArrowLeft step from the current index. */
  function Key(v: Viewer, key: string): Viewer
    requires Sane(v)
  {
    if !v.overlayOpen then v
    else
      var v1 := if key == "Escape" then Close(v) else v;
      var v2 := if key == "ArrowRight" then ShowSlide(v1, v1.index + 1) else v1;
      if key == "ArrowLeft" then ShowSlide(v2, v2.index - 1) else v2
  }

  /** One user action. A disabled button receives no click, so "previous"
      and "next" do nothing while `showSlide` has them disabled; the keydown
      listener has no such guard. */
  function Handle(pg: Page, e: Event): (r: Page)
    requires Sane(pg.viewer) && CardsOpenable(pg)
    ensures r.galleries == pg.galleries && r.grid == pg.grid
    ensures Sane(r.viewer)
    ensures Consistent(pg.viewer) ==> Consistent(r.viewer)
    ensures e.KeyDown? && !pg.viewer.overlayOpen ==> r == pg
    ensures e == PrevButton && pg.viewer.view.prevDisabled ==> r == pg
    ensures e == NextButton && pg.viewer.view.nextDisabled ==> r == pg
  {
    var v := pg.viewer;
    var v' := match e
      case CardButton(k) =>
        if k < |CardsOf(pg.grid)| then
          var c := CardsOf(pg.grid)[k];
          Open(pg.galleries, v, c.galleryId, c.startIndex)
        else v
      case CloseButton => Close(v)
      case OverlayClick(onBackdrop) => if onBackdrop then Close(v) else v
      case PrevButton => if v.view.prevDisabled then v else ShowSlide(v, v.index - 1)
      case NextButton => if v.view.nextDisabled then v else ShowSlide(v, v.index + 1)
      case ThumbClick(k) => if k < |v.view.thumbs| then ShowSlide(v, k) else v
      case KeyDown(key) => Key(v, key);
    pg.(viewer := v')
  }

  /** The page after booting the catalog and handling the events in order.
      Every state reached this way satisfies the viewer's invariant. */
  function Run(catalog: seq<Project>, events: seq<Event>): (pg: Page)
    requires CardsOpenable(Boot(catalog))
    ensures pg.galleries == GalleryIndex(catalog) && pg.grid == Layout(catalog)
    ensures Consistent(pg.viewer)
    decreases |events|
  {
    if events == [] then Boot(catalog)
    else Handle(Run(catalog, events[..|events| - 1]), events[|events| - 1])
  }

  /** With unique ids every card can be opened. */
  lemma UniqueIdsMakeCardsOpenable(catalog: seq<Project>)
    requires UniqueIds(catalog)
    ensures CardsOpenable(Boot(catalog))
  {
    CardsOpenTheirProject(catalog);
  }

  /** After boot, card k opens the project at card source k, at its first item. */
  lemma BootCardOpens(catalog: seq<Project>, k: nat)
    requires k < |CardSources(catalog)|
    ensures k < |CardsOf(Boot(catalog).grid)| && CardSources(catalog)[k] < |catalog|
    ensures CardsOf(Boot(catalog).grid)[k].galleryId == catalog[CardSources(catalog)[k]].id
    ensures CardsOf(Boot(catalog).grid)[k].startIndex == 0
  {
    CardsOpenAtFirstItem(catalog);
    assert CardsOf(Boot(catalog).grid) == Cards(catalog);
  }

  /** A card's button opens the card's gallery at the card's start index. */
  lemma HandleCardButton(pg: Page, k: nat)
    requires Sane(pg.viewer) && CardsOpenable(pg) && k < |CardsOf(pg.grid)|
    ensures Handle(pg, CardButton(k)).viewer ==
            Open(pg.galleries, pg.viewer, CardsOf(pg.grid)[k].galleryId, CardsOf(pg.grid)[k].startIndex)
  {
  }

  /** While the overlay is open the keyboard mirrors the buttons: Escape does
      what the close button and a backdrop click do, the arrow keys do what
      "next" and "previous" do while those are enabled; any other key, and a
      click inside the content, changes nothing. */
  lemma KeysMirrorButtons(pg: Page, key: string)
    requires Sane(pg.viewer) && CardsOpenable(pg) && pg.viewer.overlayOpen
    ensures Handle(pg, KeyDown("Escape")) == Handle(pg, CloseButton) == Handle(pg, OverlayClick(true))
    ensures !pg.viewer.view.nextDisabled ==> Handle(pg, KeyDown("ArrowRight")) == Handle(pg, NextButton)
    ensures !pg.viewer.view.prevDisabled ==> Handle(pg, KeyDown("ArrowLeft")) == Handle(pg, PrevButton)
    ensures key != "Escape" && key != "ArrowRight" && key != "ArrowLeft" ==> Handle(pg, KeyDown(key)) == pg
    ensures Handle(pg, OverlayClick(false)) == pg
  {
    assert Handle(pg, CloseButton).viewer == Close(pg.viewer);
  }

  /** In an open gallery, "previous" on the first item and "next" on the
      last are disabled and leave the page as it is, while ArrowLeft and
      ArrowRight there still rebuild the stage, so a video starts over. */
  lemma EndsOfGallery(pg: Page)
    requires Sane(pg.viewer) && CardsOpenable(pg) && Consistent(pg.viewer)
    requires pg.viewer.gallery.Some? && pg.viewer.overlayOpen
    ensures pg.viewer.index == 0 ==>
      && Handle(pg, PrevButton) == pg
      && Handle(pg, KeyDown("ArrowLeft")).viewer == Restaged(pg.viewer)
    ensures pg.viewer.index == |pg.viewer.gallery.value.items| - 1 ==>
      && Handle(pg, NextButton) == pg
      && Handle(pg, KeyDown("ArrowRight")).viewer == Restaged(pg.viewer)
  {
    BoundaryNavigationOnlyRestages(pg.viewer);
  }

  /** The page after the same key is pressed k times. */
  function KeyPresses(pg: Page, key: string, k: nat): (r: Page)
    requires Sane(pg.viewer) && CardsOpenable(pg)
    ensures r.galleries == pg.galleries && r.grid == pg.grid
    ensures Sane(r.viewer) && CardsOpenable(r)
    decreases k
  {
    if k == 0 then pg else KeyPresses(Handle(pg, KeyDown(key)), key, k - 1)
  }

  /** On an open overlay, pressing ArrowRight (ArrowLeft) k times is stepping
      k times forward (back) with `showSlide`. */
  lemma {:induction false} ArrowKeyPresses(pg: Page, key: string, k: nat)
    requires Sane(pg.viewer) && CardsOpenable(pg) && pg.viewer.overlayOpen
    requires key == "ArrowRight" || key == "ArrowLeft"
    ensures KeyPresses(pg, key, k).viewer == Presses(pg.viewer, if key == "ArrowRight" then 1 else -1, k)
    decreases k
  {
    if k > 0 {
      var step := if key == "ArrowRight" then 1 else -1;
      var p1 := Handle(pg, KeyDown(key));
      ArrowKeyStep(pg, key);
      assert KeyPresses(pg, key, k) == KeyPresses(p1, key, k - 1);
      assert Presses(pg.viewer, step, k) == Presses(p1.viewer, step, k - 1);
      ArrowKeyPresses(p1, key, k - 1);
    }
  }

  /** One arrow key press on an open overlay is one `showSlide` step, and
      the overlay stays open. */
  lemma ArrowKeyStep(pg: Page, key: string)
    requires Sane(pg.viewer) && CardsOpenable(pg) && pg.viewer.overlayOpen
    requires key == "ArrowRight" || key == "ArrowLeft"
    ensures Handle(pg, KeyDown(key)).viewer ==
            ShowSlide(pg.viewer, pg.viewer.index + if key == "ArrowRight" then 1 else -1)
    ensures Handle(pg, KeyDown(key)).viewer.overlayOpen
  {
  }
}

=== FILE: typed_title.dfy ===
/** The typed hero title of js/script.js: `type()` shows one more character
    of the current phrase per tick, pauses, deletes it one character per
    tick, pauses, and moves on to the next phrase. The timer is abstracted
    away: a step returns the text to display and the delay before the next
    step. */
module TypedTitle {

  const Phrases: seq<string> := [
    "Architectural Engineer",
    "AutoCAD Instructor",
    "Presentation Designer",
    "Visualizer"]

  const TypedPause := 2000
  const DeletedPause := 400
  const TypeSpeed := 80
  const DeleteSpeed := 50

  datatype Typer = Typer(phraseIdx: int, charIdx: int, deleting: bool, pauseMs: int)

  /** One call of `type()`: the next state, the text displayed, and the wait
      passed to `setTimeout`. */
  datatype Tick = Tick(next: Typer, text: string, wait: int)

  /** The state before the first call. */
  const Start: Typer := Typer(0, 0, false, 0)

  /** The animation starts in a valid state: every phrase is non-empty. */
  lemma StartIsValid()
    ensures Valid(Start)
    ensures forall p :: 0 <= p < |Phrases| ==> |Phrases[p]| > 0
  {
  }

  /** `s.slice(0, end)`: a negative end counts from the back, and the end is
      clamped to the string. */
  function Slice(s: string, end: int): string
  {
    if end < 0 then (if |s| + end < 0 then [] else s[..|s| + end])
    else if end > |s| then s
    else s[..end]
  }

  /** The states `type()` is ever called in: while typing, some but not all
      characters are shown; while deleting, at least one is. */
  predicate Valid(t: Typer)
  {
    && 0 <= t.phraseIdx < |Phrases|
    && t.pauseMs == 0
    && (if t.deleting then 1 <= t.charIdx <= |Phrases[t.phraseIdx]|
        else 0 <= t.charIdx < |Phrases[t.phraseIdx]|)
  }

  /** The typing or deleting half of `type()`, before the wait is chosen. */
  function Advance(t: Typer): (Typer, string)
    requires 0 <= t.phraseIdx < |Phrases|
  {
    var current := Phrases[t.phraseIdx];
    if !t.deleting then
      var shown := Slice(current, t.charIdx + 1);
      var c := t.charIdx + 1;
      if c == |current| then (t.(charIdx := c, deleting := true, pauseMs := TypedPause), shown)
      else (t.(charIdx := c), shown)
    else
      var shown := Slice(current, t.charIdx - 1);
      var c := t.charIdx - 1;
      if c == 0 then (t.(charIdx := c, deleting := false, phraseIdx := (t.phraseIdx + 1) % |Phrases|, pauseMs := DeletedPause), shown)
      else (t.(charIdx := c), shown)
  }

  /** One call of `type()`. From a valid state: the next state is valid, the
      text shown is the first charIdx characters of the current phrase,
      deleting starts exactly when the whole phrase is shown and stops
      exactly when nothing is left, the phrase moves on (cyclically)
      exactly when deleting reaches zero, and
      the wait is the long pause right after typing finishes, the short pause
      right after deleting finishes, and otherwise the typing or deleting
      speed. */
  function Step(t: Typer): (r: Tick)
    requires 0 <= t.phraseIdx < |Phrases|
    ensures 0 <= r.next.phraseIdx < |Phrases|
    ensures Valid(t) ==>
      && Valid(r.next)
      && r.text == Phrases[r.next.phraseIdx][..r.next.charIdx]
      && r.next.charIdx == (if t.deleting then t.charIdx - 1 else t.charIdx + 1)
      && r.next.deleting == (if t.deleting then r.next.charIdx > 0 else r.next.charIdx == |Phrases[t.phraseIdx]|)
      && (r.next.phraseIdx != t.phraseIdx <==> t.deleting && r.next.charIdx == 0)
      && (r.next.phraseIdx != t.phraseIdx ==> r.next.phraseIdx == (t.phraseIdx + 1) % |Phrases|)
      && r.wait == (if !t.deleting && r.next.deleting then TypedPause
                    else if t.deleting && !r.next.deleting then DeletedPause
                    else if t.deleting then DeleteSpeed
                    else TypeSpeed)
  {
    var (t1, shown) := Advance(t);
    var speed := if t1.deleting then DeleteSpeed else TypeSpeed;
    var wait := if t1.pauseMs > 0 then t1.pauseMs else speed;
    Tick(t1.(pauseMs := 0), shown, wait)
  }

  /** The state after k calls. */
  function Steps(t: Typer, k: nat): (r: Typer)
    requires Valid(t)
    ensures Valid(r)
    decreases k
  {
    if k == 0 then t else Steps(Step(t).next, k - 1)
  }

  /** Total of the waits of k calls. */
  function WaitSum(t: Typer, k: nat): int
    requires Valid(t)
    decreases k
  {
    if k == 0 then 0 else Step(t).wait + WaitSum(Step(t).next, k - 1)
  }

  lemma {:induction false} StepsAppend(t: Typer, a: nat, b: nat)
    requires Valid(t)
    ensures Steps(t, a + b) == Steps(Steps(t, a), b)
    ensures WaitSum(t, a + b) == WaitSum(t, a) + WaitSum(Steps(t, a), b)
    decreases a
  {
    if a > 0 {
      StepsAppend(Step(t).next, a - 1, b);
    }
  }

  lemma {:induction false} TypingRun(p: int, c: int)
    requires 0 <= p < |Phrases| && 0 <= c < |Phrases[p]|
    ensures Steps(Typer(p, c, false, 0), |Phrases[p]| - c) == Typer(p, |Phrases[p]|, true, 0)
    ensures WaitSum(Typer(p, c, false, 0), |Phrases[p]| - c) == TypeSpeed * (|Phrases[p]| - 1 - c) + TypedPause
    decreases |Phrases[p]| - c
  {
    var t := Typer(p, c, false, 0);
    if c + 1 < |Phrases[p]| {
      assert Step(t).next == Typer(p, c + 1, false, 0);
      TypingRun(p, c + 1);
    } else {
      assert Step(t).next == Typer(p, |Phrases[p]|, true, 0);
    }
  }

  lemma {:induction false} DeletingRun(p: int, c: int)
    requires 0 <= p < |Phrases| && 1 <= c <= |Phrases[p]|
    ensures Steps(Typer(p, c, true, 0), c) == Typer((p + 1) % |Phrases|, 0, false, 0)
    ensures WaitSum(Typer(p, c, true, 0), c) == DeleteSpeed * (c - 1) + DeletedPause
    decreases c
  {
    var t := Typer(p, c, true, 0);
    if c > 1 {
      assert Step(t).next == Typer(p, c - 1, true, 0);
      DeletingRun(p, c - 1);
    } else {
      assert Step(t).next == Typer((p + 1) % |Phrases|, 0, false, 0);
    }
  }

  /** One full cycle: starting on an empty phrase, 2 * |phrase| calls type
      it out and delete it again, land on the empty next phrase, and take
      130 ms per character beyond the first plus the two pauses. */
  lemma PhraseCycle(p: int)
    requires 0 <= p < |Phrases|
    ensures Steps(Typer(p, 0, false, 0), 2 * |Phrases[p]|) == Typer((p + 1) % |Phrases|, 0, false, 0)
    ensures WaitSum(Typer(p, 0, false, 0), 2 * |Phrases[p]|) == (TypeSpeed + DeleteSpeed) * (|Phrases[p]| - 1) + TypedPause + DeletedPause
  {
    var n := |Phrases[p]|;
    var t := Typer(p, 0, false, 0);
    StepsAppend(t, n, n);
    TypingRun(p, 0);
    DeletingRun(p, n);
  }
}

=== FILE: wrappers.dfy ===
/** Option and Result, used for absent values and rejected inputs. */
module Wrappers {

  datatype Option<+T> = None | Some(value: T)

  datatype Result<+T, +E> = Ok(value: T) | Err(error: E)
}
